=== FILE: README.md ===
# Post-form cooldown and home-page shaping of an imageboard, in Dafny

This project models the two places in the imageboard's web front end that
hold logic rather than markup.

- **The post form** (`src/app/components/PostForm.js`). It is a small state
  machine. It keeps a per-target "last submission" timestamp in
  localStorage. On mount and on every change of target it checks whether the
  board or thread is still in its cooldown: 10 minutes between new threads,
  60 seconds between replies. It counts the time left down once a second and
  shows it as `"Xm Ys"` or `"Ys"`. A submit is refused while limited, or when
  there is no content and no image (even if the other fields are filled). Otherwise the form sends the non-empty fields, and the
  image if one is picked, to the thread or reply endpoint. On success it arms
  the cooldown, clears the draft and hides itself; a new thread also
  redirects to its page. On failure it keeps the draft and shows the
  server's message or a fixed one.
- **The home page** (`src/app/page.js`). It builds the code-to-name map of
  the boards and sums their post counts. It picks the "popular threads":
  threads with a non-blank image URL, most replies first, at most six. For
  each it computes the link, the board label and a 100-character excerpt.

Modules:

- `Wrappers` holds `Option`.
- `Decimal` holds JavaScript's decimal `toString` for integers and the part
  of `parseInt` the form relies on. It proves that reading back what was
  written gives the same number.
- `Cooldown` holds the pure parts of the form: the storage key, the window,
  the outcome of a check, the countdown tick, and the time rendering.
- `PostForm` holds a `LocalStorage` class, the `PostForm` component class
  and the submit workflow.
- `HomePage` holds the page's list pipeline.

The component is a class whose fields are the React state variables. The
props `boardCode` and `threadNumber` are fields too. `localStorage` is a
shared `LocalStorage` object holding a `map<string, string>`. The current
time is a parameter. The fetch outcome is a `Response` value: `Accepted`
(2xx with a parsed body, which may be JSON `null`), `Refused` (non-2xx with
a parsed body), or `Failed` (the fetch or the JSON parse threw). Whether the
parent's `onPostCreated` callback throws is a boolean parameter.

`handleSubmit` is split at its `await`. `HandleSubmit` runs the gates,
builds the request and sets `isSubmitting`. `FinishSubmit` is the
continuation. It receives the props that the handler's closure captured, so
a success arms the cooldown of the target that was submitted to. The class
invariant `Valid()` says the form is limited exactly while time is left, and
that the time left is never negative. Every method keeps it.

Two behaviours of the code are kept as written:

- a check that finds no record (or an empty one) leaves the previous
  limited/remaining state untouched; it does not reset it to "not limited"
  (`src/app/components/PostForm.js:53`);
- closing the form only hides it; the draft is kept
  (`src/app/components/PostForm.js:173`).

## Model

| member | source | states |
|---|---|---|
| Decimal.ParseIntOfNatToString | src/app/components/PostForm.js:54 | `parseInt` of the stored `Date.now().toString()` gives back that timestamp |
| Decimal.ParseIntOfIntToString | src/app/page.js:96 | any integer's decimal text parses back to that integer, sign included |
| Cooldown.StorageKeyIdentifiesTarget | src/app/components/PostForm.js:49-50 | two (board, thread) props give the same storage key exactly when they name the same target (same kind, same board, same thread number); a shared key also means a shared cooldown window |
| Cooldown.CooldownFor | src/app/components/PostForm.js:22-23 | the window that check and arm both use is positive, so a freshly armed form is always limited |
| Cooldown.CheckedState | src/app/components/PostForm.js:51-64 | a check keeps the invariant "limited exactly while time is left, never negative" |
| Cooldown.CheckFailsOpen | src/app/components/PostForm.js:53-62 | no record or an empty record leaves the previous state untouched; an unparsable record (NaN) reads as not limited with 0 left |
| Cooldown.CheckAfterArm | src/app/components/PostForm.js:53-59 | after arming at t, a check at now is limited iff now − t < window, with window − (now − t) left; this lies in (0, window] when now ≥ t; at now = t the full window is left |
| Cooldown.RearmReplacesRecord | src/app/components/PostForm.js:67-70 | arming at t1 then at t2 leaves the same storage as arming only at t2, so every later check agrees |
| Cooldown.TickState | src/app/components/PostForm.js:34-42 | one tick keeps the invariant, and while limited it strictly lowers the time left without making it negative |
| Cooldown.CountdownStillLimited | src/app/components/PostForm.js:36-42 | before ceil(remaining/1000) ticks the form is still limited, with 1000 ms less per tick |
| Cooldown.CountdownExpires | src/app/components/PostForm.js:36-42 | a limited form is unlimited with 0 left after exactly ceil(remaining/1000) ticks |
| Cooldown.CeilSeconds | src/app/components/PostForm.js:78 | the seconds count is the ceiling of ms/1000 |
| Cooldown.FormatRoundTrip | src/app/components/PostForm.js:77-85 | reading the rendered text back gives ceil(ms/1000) seconds, in both the minutes and the seconds form |
| Cooldown.FormatDistinguishesSeconds | src/app/components/PostForm.js:77-85 | two durations render alike exactly when they round up to the same second |
| Cooldown.FormatUsesMinutesFromOneMinute | src/app/components/PostForm.js:79-84 | the "Xm Ys" form is used exactly when the rounded-up seconds are at least 60 |
| Cooldown.FormatExamples | src/app/components/PostForm.js:77-85 | 45000→"45s", 125000→"2m 5s", 60000→"1m 0s", 59001→"1m 0s", 50000→"50s" |
| PostForm.SubmitPartsExact | src/app/components/PostForm.js:103-110 | the body holds a text field under a key's name exactly when the draft's value for that key is non-empty, with that value; it holds the image exactly when a file is picked; every other part is one of those (no part has a name outside the draft's keys) |
| PostForm.BuildSubmitData | src/app/components/PostForm.js:103-110 | the `forEach` over the draft keys followed by the image append builds exactly that body |
| PostForm.SubmitPartsNoDuplicates | src/app/components/PostForm.js:103-110 | each draft field is sent at most once (no two text parts share a name) and the image at most once |
| PostForm.EndpointKind | src/app/components/PostForm.js:112-114 | a new thread posts to exactly `/api/{board}/threads`; a reply posts to that path followed by `/`, a segment that parses back to the thread number, and `/posts`; the endpoint ends in `/posts` exactly for a reply |
| PostForm.FailureMessage | src/app/components/PostForm.js:141-146 | a non-empty server `error` is shown verbatim; a thrown request, or a refusal with no or an empty `error`, shows "Failed to submit post"; the alert is never empty |
| PostForm.SubmitDecision | src/app/components/PostForm.js:90-114 | a limited form is refused with the wait message whatever the draft; a request goes out iff the form is not limited and there is content or a file; the request carries the props, the target's endpoint and exactly the non-empty fields |
| PostForm.ReplyWhileLimitedScenario | src/app/components/PostForm.js:48-93 | a reply to thread 7 armed 10 s earlier checks as limited with 50 000 ms left and is refused with "Please wait 50s before posting again" |
| PostForm.PostForm.constructor | src/app/components/PostForm.js:6-19 | first render: hidden, empty draft, no file, not submitting, not limited |
| PostForm.PostForm.CheckRateLimit | src/app/components/PostForm.js:48-65 | the rate state becomes the check of the current target's record at `now`; nothing else changes |
| PostForm.PostForm.Retarget | src/app/components/PostForm.js:26-29 | new props re-run the check for the new target's key and window |
| PostForm.PostForm.SetRateLimit | src/app/components/PostForm.js:67-75 | the target's record is overwritten with `now`, all other records are untouched, and the form is limited for the full window |
| PostForm.PostForm.Tick | src/app/components/PostForm.js:31-46 | one firing of the interval applies the tick to the rate state |
| PostForm.PostForm.Open | src/app/components/PostForm.js:157 | shows the form |
| PostForm.PostForm.Close | src/app/components/PostForm.js:173 | hides the form and changes nothing else |
| PostForm.PostForm.Edit | src/app/components/PostForm.js:193 | an input's change sets that one draft field |
| PostForm.PostForm.SelectFile | src/app/components/PostForm.js:241 | the picked file (or none) becomes the selected file |
| PostForm.PostForm.HandleSubmit | src/app/components/PostForm.js:87-114 | the outcome is the submit decision on the current state; only `isSubmitting` may change, and it becomes true exactly when a request is sent, which disables the button |
| PostForm.PostForm.RequestSubmit | src/app/components/PostForm.js:249-251 | with the button disabled (submitting or limited) nothing happens; otherwise the handler runs; `isSubmitting` is set exactly when a request is sent, so a second attempt while it is in flight does nothing |
| PostForm.AcceptedCompletion | src/app/components/PostForm.js:120-146 | after a 2xx reply `onPostCreated` always gets the body; the fixed failure alert appears exactly when the callback throws or a new thread's body is `null` (reading its `threadNumber` throws); a redirect to `/{board}/thread/{n}` happens exactly for a new thread with a non-null body and a callback that did not throw; never both an alert and a redirect |
| PostForm.PostForm.FinishSubmit | src/app/components/PostForm.js:116-149 | on a 2xx reply: the submitted target's record is set to `now`, the full window is armed, the draft and file are cleared and the form is hidden, even when the callback then throws or a `null` body makes the redirect throw; the alert, callback argument and redirect are those of the 2xx outcome above; on a refusal or an earlier throw: storage, limit, draft, file and visibility are unchanged and the failure message is shown; never submitting afterwards |
| HomePage.BoardMapLastWins | src/app/page.js:16-19 | the map has a key for exactly the board codes, and each code maps to the name of the last board with that code |
| HomePage.BoardLabelFallback | src/app/page.js:102 | the label is the board's (last) name when it exists and is non-empty, otherwise the thread's board code |
| HomePage.TotalPostsIsSum | src/app/page.js:22 | the total is the sum of all post counts: 0 for no boards, and additive over any split of the list |
| HomePage.TrimEmptyIffBlank | src/app/page.js:26 | a URL trims to "" exactly when all of its characters are ECMAScript whitespace |
| HomePage.WithImagesSelects | src/app/page.js:26 | the filter keeps every image-bearing thread as often as it occurs and drops all others |
| HomePage.SortOrdersAndPermutes | src/app/page.js:27 | the sort puts the most replies first (missing counts as 0) and is a permutation of its input |
| HomePage.PopularThreadsAreTopSix | src/app/page.js:25-28 | min(6, #image threads) threads are picked; all have a non-blank image; they are ordered by replies, non-increasing; they form a sub-multiset of the input; no image thread left out has more replies than a picked one |
| HomePage.ThreadHrefSegment | src/app/page.js:96 | the link is `/{board}/thread/` plus a non-empty segment: the thread number if truthy (it parses back to it), else the id if non-empty, else the position |
| HomePage.Excerpt | src/app/page.js:121-122 | the excerpt is at most 103 characters; it is the content itself when that has at most 100 characters, else its first 100 followed by "..."; with no content it is empty |

## Left out

- `scripts/init-db.js` is not part of this model. It is database connection and seeding through collaborators that are not shown.
- `src/app/components/Marq.js` is not part of this model. It is static markup.
- JSX rendering and styling are not modelled. This covers the button labels, the "Rate Limited" banner, the character counter, "No Subject", the replies display, and `toLocaleString` / `toLocaleDateString`.
- `fetch`, multipart encoding and `response.json()` are not modelled: the request is a list of parts and the outcome is a `Response` input. `alert` becomes a returned message, `window.location.href` a returned path, and the `onPostCreated` call a returned post. An absent `onPostCreated` (the `?.` call) behaves like a callback that does not throw.
- `Date.now()` is a parameter. The arming time in `FinishSubmit` is the time the response arrived.
- `setInterval` / `clearInterval` and React's effect scheduling and batching are not modelled. A tick is an explicit call, and timer concurrency is out of scope.
- `parseInt`: leading whitespace, the `0x` prefix and the digit limits of floating-point numbers are not modelled. Integers are unbounded.
- `threadNumber` is modelled as an optional natural number. A string prop such as `"5_7"` could make two targets share a key (board `a_5`, thread `7` against board `a`, thread `5_7`); the injectivity proof does not cover that case.
- The `maxLength` limits of the inputs (12, 12, 50 and 280 characters) are enforced by the browser and are not modelled. `Edit` also does not model that the subject input only exists for new threads, or that there is no email input.
- The board map is a Dafny map. Lookups of `Object.prototype` names such as `constructor` on the plain object are not modelled.
- `substring` and `length` count UTF-16 code units. The model counts Dafny characters.
- `postCount` and `replies` are integers. Missing, `NaN` or non-numeric values are not modelled, except that a missing `replies` counts as 0.
- HomePage.SortOrdersAndPermutes: states order and permutation, not stability. `SortByReplies` is stable by construction, as `Array.prototype.sort` is, but no lemma states it.

=== FILE: cooldown.dfy ===
/**
 * The cooldown tracker of the post form (src/app/components/PostForm.js):
 * the per-target storage key, the cooldown window, what a check of the
 * stored timestamp decides, the one-second countdown and the
 * "Xm Ys" / "Ys" rendering of the time left. These are the pure pieces;
 * the component that holds the state is in module PostForm.
 */
module Cooldown {
  import opened Wrappers
  import opened Decimal

  /** Ten minutes between two new threads on one board. */
  const ThreadCooldown: nat := 600000
  /** Sixty seconds between two replies to one thread. */
  const PostCooldown: nat := 60000
  const StorageKeyPrefix: string := "postform_last_"

  /** JavaScript truthiness of the `threadNumber` prop: absent and 0 are falsy. */
  predicate IsReply(threadNumber: Option<nat>) {
    threadNumber.Some? && threadNumber.value != 0
  }

  /** What a submission is aimed at: a new thread on a board, or a reply to one thread. */
  datatype Target = NewThread(board: string) | Reply(board: string, thread: nat)

  function TargetOf(boardCode: string, threadNumber: Option<nat>): Target {
    if IsReply(threadNumber) then Reply(boardCode, threadNumber.value) else NewThread(boardCode)
  }

  function ActionType(threadNumber: Option<nat>): string {
    if IsReply(threadNumber) then "post" else "thread"
  }

  /** The localStorage key under which the last submission time for a target is kept. */
  function StorageKey(boardCode: string, threadNumber: Option<nat>): string {
    StorageKeyPrefix + ActionType(threadNumber) + "_" + boardCode
      + (if IsReply(threadNumber) then "_" + NatToString(threadNumber.value) else "")
  }

  /** The cooldown window in milliseconds; check and arm both choose it this way. */
  function CooldownFor(threadNumber: Option<nat>): (ms: nat)
    ensures ms > 0
  {
    if IsReply(threadNumber) then PostCooldown else ThreadCooldown
  }

  /** Index of the last underscore of `s`, or -1. */
  function LastUnderscore(s: string): int {
    if s == [] then -1
    else if s[|s| - 1] == '_' then |s| - 1
    else LastUnderscore(s[..|s| - 1])
  }

  lemma {:induction false} LastUnderscoreBeforeDigits(b: string, d: string)
    requires AllDigits(d)
    ensures LastUnderscore(b + "_" + d) == |b|
  {
    if d != [] {
      var s := b + "_" + d;
      assert s[..|s| - 1] == b + "_" + d[..|d| - 1];
      LastUnderscoreBeforeDigits(b, d[..|d| - 1]);
    }
  }

  /** `b + "_" + D` with a digit string D can be split back at its last underscore. */
  lemma SplitAtLastUnderscore(b1: string, d1: string, b2: string, d2: string)
    requires AllDigits(d1) && AllDigits(d2)
    requires b1 + "_" + d1 == b2 + "_" + d2
    ensures b1 == b2 && d1 == d2
  {
    var s := b1 + "_" + d1;
    LastUnderscoreBeforeDigits(b1, d1);
    LastUnderscoreBeforeDigits(b2, d2);
    assert b1 == s[..|b1|] == b2;
    assert d1 == s[|b1| + 1..] == d2;
  }

  /**
   * Two (board, thread) props share a storage record exactly when they name
   * the same target, and then they also share the cooldown window.
   */
  lemma StorageKeyIdentifiesTarget(b1: string, t1: Option<nat>, b2: string, t2: Option<nat>)
    ensures StorageKey(b1, t1) == StorageKey(b2, t2) <==> TargetOf(b1, t1) == TargetOf(b2, t2)
    ensures StorageKey(b1, t1) == StorageKey(b2, t2) ==> CooldownFor(t1) == CooldownFor(t2)
  {
    if StorageKey(b1, t1) == StorageKey(b2, t2) {
      SameKeySameKind(b1, t1, b2, t2);
      if IsReply(t1) {
        SameReplyKey(b1, t1.value, b2, t2.value);
      } else {
        SameThreadKey(b1, t1, b2, t2);
      }
    }
  }

  /** The character after the prefix tells a reply key from a thread key. */
  lemma SameKeySameKind(b1: string, t1: Option<nat>, b2: string, t2: Option<nat>)
    requires StorageKey(b1, t1) == StorageKey(b2, t2)
    ensures IsReply(t1) == IsReply(t2)
  {
    var k1, k2 := StorageKey(b1, t1), StorageKey(b2, t2);
    var p := |StorageKeyPrefix|;
    assert k1[p] == (if IsReply(t1) then 'p' else 't');
    assert k2[p] == (if IsReply(t2) then 'p' else 't');
  }

  /** Two reply keys are equal only for the same board and thread. */
  lemma SameReplyKey(b1: string, n1: nat, b2: string, n2: nat)
    requires n1 != 0 && n2 != 0
    requires StorageKey(b1, Some(n1)) == StorageKey(b2, Some(n2))
    ensures b1 == b2 && n1 == n2
  {
    ReplyKeyTail(b1, n1);
    ReplyKeyTail(b2, n2);
    SplitAtLastUnderscore(b1, NatToString(n1), b2, NatToString(n2));
    NatToStringInjective(n1, n2);
  }

  /** After the prefix and "post_", a reply key is the board, an underscore and the thread number. */
  lemma ReplyKeyTail(b: string, n: nat)
    requires n != 0
    ensures |StorageKey(b, Some(n))| >= |StorageKeyPrefix| + 5
    ensures StorageKey(b, Some(n))[|StorageKeyPrefix| + 5..] == b + "_" + NatToString(n)
  {
    var d := NatToString(n);
    var tail := b + "_" + d;
    assert StorageKey(b, Some(n)) == (StorageKeyPrefix + "post_") + tail;
  }

  /** Two new-thread keys are equal only for the same board. */
  lemma SameThreadKey(b1: string, t1: Option<nat>, b2: string, t2: Option<nat>)
    requires !IsReply(t1) && !IsReply(t2)
    requires StorageKey(b1, t1) == StorageKey(b2, t2)
    ensures b1 == b2
  {
    var k1, k2 := StorageKey(b1, t1), StorageKey(b2, t2);
    var p := |StorageKeyPrefix|;
    assert k1 == StorageKeyPrefix + ("thread_" + b1);
    assert k2 == StorageKeyPrefix + ("thread_" + b2);
    assert b1 == k1[p + 7..] == k2[p + 7..] == b2;
  }

  /** The two rate-limit fields of the form: `isRateLimited` and `timeUntilNextPost`. */
  datatype RateState = RateState(limited: bool, remaining: int)

  /** What the form keeps true of those fields: limited exactly while time is left. */
  predicate Consistent(s: RateState) {
    s.remaining >= 0 && (s.limited <==> s.remaining > 0)
  }

  /**
   * The state a check of the stored record leaves. A missing or empty record
   * (falsy) leaves the previous state; an unparsable one compares as NaN,
   * which is never below the window, so it reads as not limited.
   */
  function CheckedState(prev: RateState, record: Option<string>, now: int, cooldown: nat): (r: RateState)
    ensures Consistent(prev) ==> Consistent(r)
  {
    if record.None? || record.value == "" then prev
    else match ParseInt(record.value)
      case None => RateState(false, 0)
      case Some(last) =>
        var elapsed := now - last;
        if elapsed < cooldown then RateState(true, cooldown - elapsed) else RateState(false, 0)
  }

  /**
   * Without a record (or with an empty one) the check leaves the previous
   * state as it was, even a limit left over from another target; a record
   * that does not parse never limits.
   */
  lemma CheckFailsOpen(prev: RateState, now: int, cooldown: nat, garbage: string)
    requires garbage != "" && ParseInt(garbage).None?
    ensures CheckedState(prev, None, now, cooldown) == prev
    ensures CheckedState(prev, Some(""), now, cooldown) == prev
    ensures CheckedState(prev, Some(garbage), now, cooldown) == RateState(false, 0)
  {
  }

  /**
   * After a record was written at `armedAt`, a check at `now` is limited
   * exactly while less than the window has elapsed, with the rest of the
   * window left; at the arming instant itself the whole window is left.
   */
  lemma CheckAfterArm(prev: RateState, armedAt: nat, now: int, cooldown: nat)
    ensures var r := CheckedState(prev, Some(NatToString(armedAt)), now, cooldown);
      && (r.limited <==> now - armedAt < cooldown)
      && (r.limited ==> r.remaining == cooldown - (now - armedAt))
      && (!r.limited ==> r.remaining == 0)
      && (armedAt <= now && r.limited ==> 0 < r.remaining <= cooldown)
      && (now == armedAt && cooldown > 0 ==> r == RateState(true, cooldown))
  {
    ParseIntOfNatToString(armedAt);
  }

  /**
   * Arming a second time replaces the first record: every later check,
   * of any key, sees the same thing as if only the second arming happened.
   */
  lemma RearmReplacesRecord(store: map<string, string>, key: string, t1: nat, t2: nat,
                            prev: RateState, now: int, cooldown: nat, k: string)
    ensures store[key := NatToString(t1)][key := NatToString(t2)] == store[key := NatToString(t2)]
    ensures CheckedState(prev, MapLookup(store[key := NatToString(t1)][key := NatToString(t2)], k), now, cooldown)
         == CheckedState(prev, MapLookup(store[key := NatToString(t2)], k), now, cooldown)
  {
    assert store[key := NatToString(t1)][key := NatToString(t2)] == store[key := NatToString(t2)];
  }

  /**
   * One firing of the one-second interval. The interval only exists while
   * the form is limited with time left; the update clears the limit when at
   * most one second was left.
   */
  function TickState(s: RateState): (r: RateState)
    ensures Consistent(s) ==> Consistent(r)
    ensures s.limited && s.remaining > 0 ==> 0 <= r.remaining < s.remaining
  {
    if s.limited && s.remaining > 0 then
      if s.remaining <= 1000 then RateState(false, 0) else RateState(true, s.remaining - 1000)
    else s
  }

  /** The state after `k` firings of the interval. */
  function Ticks(s: RateState, k: nat): RateState
    decreases k
  {
    if k == 0 then s else Ticks(TickState(s), k - 1)
  }

  /** ceil(ms / 1000) for a non-negative duration. */
  function TicksToExpire(ms: nat): nat {
    (ms + 999) / 1000
  }

  /** Before the last needed tick the form is still limited, one second less per tick. */
  lemma {:induction false} CountdownStillLimited(s: RateState, k: nat)
    requires Consistent(s)
    requires k < TicksToExpire(s.remaining)
    ensures Ticks(s, k) == RateState(true, s.remaining - 1000 * k)
    decreases k
  {
    if k > 0 {
      var s' := TickState(s);
      assert s'.remaining == s.remaining - 1000;
      CountdownStillLimited(s', k - 1);
    }
  }

  /** A consistent limit clears after exactly ceil(remaining / 1000) ticks. */
  lemma {:induction false} CountdownExpires(s: RateState)
    requires Consistent(s)
    ensures Ticks(s, TicksToExpire(s.remaining)) == RateState(false, 0)
    decreases s.remaining
  {
    if s.remaining > 1000 {
      var s' := TickState(s);
      assert TicksToExpire(s'.remaining) == TicksToExpire(s.remaining) - 1;
      CountdownExpires(s');
    } else if s.remaining > 0 {
      assert TicksToExpire(s.remaining) == 1;
    }
  }

  /** `Math.ceil(ms / 1000)`. */
  function CeilSeconds(ms: int): (sec: int)
    ensures 1000 * (sec - 1) < ms <= 1000 * sec
  {
    -((-ms) / 1000)
  }

  /** `formatTimeRemaining`: whole minutes and seconds from a minute on, else seconds. */
  function FormatTimeRemaining(ms: int): string {
    var seconds := CeilSeconds(ms);
    if seconds >= 60 then NatToString(seconds / 60) + "m " + NatToString(seconds % 60) + "s"
    else IntToString(seconds) + "s"
  }

  /** Reads back "Ds" as D seconds. */
  function ParseSecondsText(s: string): Option<nat> {
    var k := DigitRun(s);
    if k > 0 && |s| == k + 1 && s[k] == 's' then Some(DigitsValue(s[..k])) else None
  }

  /** Reads back a rendered duration ("Mm Ss", "Ss" or "-Ss") as a number of seconds. */
  function ParseDuration(s: string): Option<int> {
    if |s| > 0 && s[0] == '-' then
      match ParseSecondsText(s[1..])
      case Some(n) => Some(-(n as int))
      case None => None
    else if ParseSecondsText(s).Some? then
      Some(ParseSecondsText(s).value)
    else ParseMinutesText(s)
  }

  /** Reads back "Mm Ss" as 60 * M + S seconds. */
  function ParseMinutesText(s: string): Option<int> {
    var k := DigitRun(s);
    if k > 0 && |s| - k >= 2 && s[k] == 'm' && s[k + 1] == ' ' then
      match ParseSecondsText(s[k + 2..])
      case Some(r) => Some(60 * DigitsValue(s[..k]) + r)
      case None => None
    else None
  }

  lemma SecondsTextOfDigits(d: nat)
    ensures ParseSecondsText(NatToString(d) + "s") == Some(d)
  {
    var t := NatToString(d);
    DigitRunOfDigitsThen(t, "s");
    assert (t + "s")[|t|] == 's';
    DigitsValueOfNatToString(d);
  }

  /** "Mm " followed by a seconds text reads back as M minutes plus those seconds. */
  lemma MinutesTextParses(m: string, rest: string, r: nat)
    requires |m| >= 1 && AllDigits(m)
    requires ParseSecondsText(rest) == Some(r)
    ensures ParseDuration(m + "m " + rest) == Some(60 * DigitsValue(m) + r)
  {
    var s := m + ("m " + rest);
    assert m + "m " + rest == s;
    assert s[0] == m[0];
    DigitsThenLetterNotSeconds(m, "m " + rest);
    MinutesTextValue(m, rest, r);
    UnsignedDuration(s);
  }

  /** Digits followed by a letter other than 's' are not a plain seconds text. */
  lemma DigitsThenLetterNotSeconds(m: string, tail: string)
    requires AllDigits(m)
    requires |tail| >= 2 && tail[0] == 'm'
    ensures ParseSecondsText(m + tail).None?
  {
    var s := m + tail;
    DigitRunOfDigitsThen(m, tail);
    assert s[|m|] == 'm';
  }

  /** The minutes reader splits "Mm " + rest at the digit run of M. */
  lemma MinutesTextValue(m: string, rest: string, r: nat)
    requires |m| >= 1 && AllDigits(m)
    requires ParseSecondsText(rest) == Some(r)
    ensures ParseMinutesText(m + ("m " + rest)) == Some(60 * DigitsValue(m) + r)
  {
    MinutesTextPieces(m, rest);
    MinutesTextReads(m + ("m " + rest), m, rest, r);
  }

  /** Where the pieces of "Mm " + rest sit. */
  lemma MinutesTextPieces(m: string, rest: string)
    requires |m| >= 1 && AllDigits(m)
    ensures var s := m + ("m " + rest);
      && DigitRun(s) == |m| && |s| - |m| >= 2 && s[|m|] == 'm' && s[|m| + 1] == ' '
      && s[..|m|] == m && s[|m| + 2..] == rest
  {
    DigitRunOfDigitsThen(m, "m " + rest);
  }

  /** The minutes reader on a digit run `m`, then "m ", then a seconds text. */
  lemma MinutesTextReads(s: string, m: string, rest: string, r: nat)
    requires |m| > 0 && AllDigits(m) && DigitRun(s) == |m| && |s| - |m| >= 2
    requires s[..|m|] == m && s[|m|] == 'm' && s[|m| + 1] == ' '
    requires s[|m| + 2..] == rest && ParseSecondsText(rest) == Some(r)
    ensures ParseMinutesText(s) == Some(60 * DigitsValue(m) + r)
  {
  }

  /** A text with no sign that is not a plain seconds text is read as minutes and seconds. */
  lemma UnsignedDuration(s: string)
    requires !(|s| > 0 && s[0] == '-') && ParseSecondsText(s).None?
    ensures ParseDuration(s) == ParseMinutesText(s)
  {
  }

  lemma MinutesFormRoundTrip(seconds: nat)
    requires seconds >= 60
    ensures ParseDuration(NatToString(seconds / 60) + "m " + NatToString(seconds % 60) + "s") == Some(seconds)
  {
    var m, r := NatToString(seconds / 60), NatToString(seconds % 60);
    SecondsTextOfDigits(seconds % 60);
    MinutesTextParses(m, r + "s", seconds % 60);
    assert m + "m " + (r + "s") == m + "m " + r + "s";
    DigitsValueOfNatToString(seconds / 60);
  }

  lemma NegativeSecondsRoundTrip(seconds: int)
    requires seconds < 0
    ensures ParseDuration(IntToString(seconds) + "s") == Some(seconds)
  {
    var t := NatToString(-seconds) + "s";
    SecondsTextOfDigits(-seconds);
    SignedSecondsParses(t, -seconds);
    NegativeSecondsText(seconds);
  }

  /** The rendering of a negative count is a minus sign before the digits of its magnitude. */
  lemma NegativeSecondsText(seconds: int)
    requires seconds < 0
    ensures IntToString(seconds) + "s" == "-" + (NatToString(-seconds) + "s")
  {
  }

  /** A minus sign before a seconds text negates it. */
  lemma SignedSecondsParses(t: string, n: nat)
    requires ParseSecondsText(t) == Some(n)
    ensures ParseDuration("-" + t) == Some(-(n as int))
  {
    assert ("-" + t)[1..] == t;
  }

  /** The rendering keeps the whole number of seconds shown: reading it back gives ceil(ms / 1000). */
  lemma FormatRoundTrip(ms: int)
    ensures ParseDuration(FormatTimeRemaining(ms)) == Some(CeilSeconds(ms))
  {
    var seconds := CeilSeconds(ms);
    if seconds >= 60 {
      MinutesFormRoundTrip(seconds);
    } else if seconds >= 0 {
      SecondsTextOfDigits(seconds);
    } else {
      NegativeSecondsRoundTrip(seconds);
    }
  }

  /** Two durations are displayed alike exactly when they round up to the same second. */
  lemma FormatDistinguishesSeconds(a: int, b: int)
    ensures FormatTimeRemaining(a) == FormatTimeRemaining(b) <==> CeilSeconds(a) == CeilSeconds(b)
  {
    FormatRoundTrip(a);
    FormatRoundTrip(b);
  }

  /** The minutes form is used exactly from one minute (rounded up) on. */
  lemma FormatUsesMinutesFromOneMinute(ms: int)
    ensures ('m' in FormatTimeRemaining(ms)) <==> CeilSeconds(ms) >= 60
  {
    var seconds := CeilSeconds(ms);
    var s := FormatTimeRemaining(ms);
    if seconds >= 60 {
      var m := NatToString(seconds / 60);
      assert s[|m|] == 'm';
    } else {
      var d := NatToString(if seconds < 0 then -seconds else seconds);
      assert s == (if seconds < 0 then "-" else "") + d + "s";
      assert forall i :: 0 <= i < |s| ==> s[i] != 'm';
    }
  }

  lemma FormatExamples()
    ensures FormatTimeRemaining(45000) == "45s"
    ensures FormatTimeRemaining(125000) == "2m 5s"
    ensures FormatTimeRemaining(60000) == "1m 0s"
    ensures FormatTimeRemaining(59001) == "1m 0s"
    ensures FormatTimeRemaining(50000) == "50s"
  {
    FormatSecondsExample(45000, 45, "45");
    FormatSecondsExample(50000, 50, "50");
    FormatMinutesExample(125000, 2, 5, "2", "5");
    FormatMinutesExample(60000, 1, 0, "1", "0");
    FormatMinutesExample(59001, 1, 0, "1", "0");
  }

  /** One rendering below a minute, given the rounded-up seconds and their digits. */
  lemma FormatSecondsExample(ms: int, seconds: nat, digits: string)
    requires 1000 * (seconds - 1) < ms <= 1000 * seconds && seconds < 60
    requires NatToString(seconds) == digits
    ensures FormatTimeRemaining(ms) == digits + "s"
  {
    assert CeilSeconds(ms) == seconds;
  }

  /** One rendering from a minute on, given the minutes and seconds and their digits. */
  lemma FormatMinutesExample(ms: int, minutes: nat, seconds: nat, md: string, sd: string)
    requires seconds < 60 && 1000 * (60 * minutes + seconds - 1) < ms <= 1000 * (60 * minutes + seconds)
    requires minutes >= 1
    requires NatToString(minutes) == md && NatToString(seconds) == sd
    ensures FormatTimeRemaining(ms) == md + "m " + sd + "s"
  {
    var total := 60 * minutes + seconds;
    assert CeilSeconds(ms) == total;
    assert total / 60 == minutes && total % 60 == seconds;
  }
}

=== FILE: decimal.dfy ===
/**
 * Decimal text for integers, as JavaScript writes and reads it:
 * `Number.prototype.toString()` for integral values and the subset of
 * `parseInt` the cooldown record needs (an optional sign, then the longest
 * run of decimal digits; no digit at all is NaN, written None).
 */
module Decimal {
  import opened Wrappers

  predicate IsDigit(c: char) {
    '0' <= c <= '9'
  }

  predicate AllDigits(s: string) {
    forall i :: 0 <= i < |s| ==> IsDigit(s[i])
  }

  function DigitChar(d: nat): (c: char)
    requires d < 10
    ensures IsDigit(c) && c as int - '0' as int == d
  {
    (('0' as int) + d) as char
  }

  function DigitValue(c: char): nat
    requires IsDigit(c)
  {
    c as int - '0' as int
  }

  /** `n.toString()` for a non-negative integer: no sign, no leading zeros. */
  function NatToString(n: nat): (s: string)
    ensures |s| >= 1 && AllDigits(s)
    ensures s[0] == '0' ==> n == 0
  {
    if n < 10 then [DigitChar(n)] else NatToString(n / 10) + [DigitChar(n % 10)]
  }

  /** `i.toString()` for any integer. */
  function IntToString(i: int): (s: string)
    ensures |s| >= 1
  {
    if i < 0 then "-" + NatToString(-i) else NatToString(i)
  }

  /** Number of leading decimal digits of `s`. */
  function DigitRun(s: string): (k: nat)
    ensures k <= |s| && AllDigits(s[..k])
    ensures k < |s| ==> !IsDigit(s[k])
  {
    if s != [] && IsDigit(s[0]) then 1 + DigitRun(s[1..]) else 0
  }

  /** The value of a string of decimal digits, most significant first. */
  function DigitsValue(s: string): nat
    requires AllDigits(s)
  {
    if s == [] then 0 else 10 * DigitsValue(s[..|s| - 1]) + DigitValue(s[|s| - 1])
  }

  /**
   * `parseInt(s)` restricted to an optional `+`/`-` followed by decimal
   * digits; characters after the digit run are ignored, as `parseInt` does.
   */
  function ParseInt(s: string): Option<int> {
    var negative := |s| > 0 && s[0] == '-';
    var body := if |s| > 0 && (s[0] == '-' || s[0] == '+') then s[1..] else s;
    var k := DigitRun(body);
    var magnitude: int := if k == 0 then 0 else DigitsValue(body[..k]);
    if k == 0 then None
    else if negative then Some(-magnitude)
    else Some(magnitude)
  }

  lemma {:induction false} DigitsValueOfNatToString(n: nat)
    ensures DigitsValue(NatToString(n)) == n
  {
    if n >= 10 {
      var d := NatToString(n / 10);
      var s := NatToString(n);
      assert s == d + [DigitChar(n % 10)];
      assert s[..|s| - 1] == d;
      DigitsValueOfNatToString(n / 10);
    }
  }

  /** Decimal rendering loses nothing: equal texts come from equal numbers. */
  lemma NatToStringInjective(m: nat, n: nat)
    ensures NatToString(m) == NatToString(n) <==> m == n
  {
    DigitsValueOfNatToString(m);
    DigitsValueOfNatToString(n);
  }

  /** A digit string followed by a non-digit (or nothing) has exactly its own length as digit run. */
  lemma {:induction false} DigitRunOfDigitsThen(d: string, t: string)
    requires AllDigits(d)
    requires t == [] || !IsDigit(t[0])
    ensures DigitRun(d + t) == |d|
    ensures (d + t)[..|d|] == d
  {
    if d != [] {
      assert (d + t)[1..] == d[1..] + t;
      DigitRunOfDigitsThen(d[1..], t);
    }
  }

  /** Reading back what `toString` wrote gives the number (the stored timestamp round trip). */
  lemma ParseIntOfNatToString(n: nat)
    ensures ParseInt(NatToString(n)) == Some(n)
  {
    var s := NatToString(n);
    DigitRunOfDigitsThen(s, []);
    assert s + [] == s;
    assert s[..|s|] == s;
    DigitsValueOfNatToString(n);
  }

  lemma ParseIntOfIntToString(i: int)
    ensures ParseInt(IntToString(i)) == Some(i)
  {
    if i < 0 {
      var s := IntToString(i);
      assert s[1..] == NatToString(-i);
      ParseIntOfNatToString(-i);
    } else {
      ParseIntOfNatToString(i);
    }
  }
}

=== FILE: homepage.dfy ===
/**
 * The data shaping of the home page (src/app/page.js): the code-to-name
 * map of the boards, the total post count, the "popular threads" pick
 * (threads with an image, most replies first, at most six), and the link,
 * board label and excerpt shown for each picked thread.
 */
module HomePage {
  import opened Wrappers
  import opened Decimal

  datatype Board = Board(code: string, name: string, postCount: int)

  datatype Thread = Thread(
    boardCode: string,
    threadNumber: Option<int>,
    id: Option<string>,
    imageUrl: Option<string>,
    replies: Option<int>,
    content: Option<string>)

  // ---------------------------------------------------------------- board map

  /** The `reduce` that fills the code-to-name object, board by board. */
  function BoardMapFrom(acc: map<string, string>, boards: seq<Board>): map<string, string>
    decreases boards
  {
    if boards == [] then acc
    else BoardMapFrom(acc[boards[0].code := boards[0].name], boards[1..])
  }

  function BoardMap(boards: seq<Board>): map<string, string> {
    BoardMapFrom(map[], boards)
  }

  /** The name of the last board with code `c`: a later board's name wins. */
  function LastNameFor(boards: seq<Board>, c: string): Option<string> {
    if boards == [] then None
    else
      var later := LastNameFor(boards[1..], c);
      if later.Some? then later
      else if boards[0].code == c then Some(boards[0].name)
      else None
  }

  lemma {:induction false} LastNameForIsLast(boards: seq<Board>, c: string)
    ensures LastNameFor(boards, c).None? <==> forall i :: 0 <= i < |boards| ==> boards[i].code != c
    ensures LastNameFor(boards, c).Some? ==>
      exists i :: 0 <= i < |boards| && boards[i].code == c && boards[i].name == LastNameFor(boards, c).value
                  && forall j :: i < j < |boards| ==> boards[j].code != c
  {
    if boards != [] {
      var rest := boards[1..];
      LastNameForIsLast(rest, c);
      if LastNameFor(rest, c).Some? {
        var i :| 0 <= i < |rest| && rest[i].code == c && rest[i].name == LastNameFor(rest, c).value
                 && forall j :: i < j < |rest| ==> rest[j].code != c;
        assert boards[i + 1] == rest[i];
        forall j | i + 1 < j < |boards| ensures boards[j].code != c {
          assert boards[j] == rest[j - 1];
        }
      } else {
        forall j | 0 < j < |boards| ensures boards[j].code != c {
          assert boards[j] == rest[j - 1];
        }
      }
    }
  }

  lemma {:induction false} BoardMapFromLookup(acc: map<string, string>, boards: seq<Board>, c: string)
    ensures MapLookup(BoardMapFrom(acc, boards), c)
         == if LastNameFor(boards, c).Some? then LastNameFor(boards, c) else MapLookup(acc, c)
    decreases boards
  {
    if boards != [] {
      BoardMapFromLookup(acc[boards[0].code := boards[0].name], boards[1..], c);
    }
  }

  /**
   * The map has a key for exactly the board codes, and each maps to the
   * name of the last board in the list with that code.
   */
  lemma BoardMapLastWins(boards: seq<Board>, c: string)
    ensures c in BoardMap(boards) <==> exists i :: 0 <= i < |boards| && boards[i].code == c
    ensures c in BoardMap(boards) ==>
      exists i :: 0 <= i < |boards| && boards[i].code == c && BoardMap(boards)[c] == boards[i].name
                  && forall j :: i < j < |boards| ==> boards[j].code != c
  {
    BoardMapFromLookup(map[], boards, c);
    LastNameForIsLast(boards, c);
  }

  /** `boardMap[thread.boardCode] || thread.boardCode`. */
  function BoardLabel(boardMap: map<string, string>, code: string): string {
    if code in boardMap && boardMap[code] != "" then boardMap[code] else code
  }

  /** A thread's label is its board's (last) name, or its code when there is no such board or the name is empty. */
  lemma BoardLabelFallback(boards: seq<Board>, code: string)
    ensures var name := LastNameFor(boards, code);
      BoardLabel(BoardMap(boards), code) == if name.Some? && name.value != "" then name.value else code
  {
    BoardMapFromLookup(map[], boards, code);
  }

  // ---------------------------------------------------------------- total posts

  /** The `reduce((sum, board) => sum + board.postCount, 0)` fold. */
  function SumFrom(acc: int, boards: seq<Board>): int
    decreases boards
  {
    if boards == [] then acc else SumFrom(acc + boards[0].postCount, boards[1..])
  }

  function TotalPosts(boards: seq<Board>): int {
    SumFrom(0, boards)
  }

  /** The sum of the post counts, board by board. */
  function PostSum(boards: seq<Board>): int {
    if boards == [] then 0 else boards[0].postCount + PostSum(boards[1..])
  }

  lemma {:induction false} SumFromAddsPostSum(acc: int, boards: seq<Board>)
    ensures SumFrom(acc, boards) == acc + PostSum(boards)
    decreases boards
  {
    if boards != [] {
      SumFromAddsPostSum(acc + boards[0].postCount, boards[1..]);
    }
  }

  lemma {:induction false} PostSumAppend(a: seq<Board>, b: seq<Board>)
    ensures PostSum(a + b) == PostSum(a) + PostSum(b)
  {
    if a != [] {
      assert (a + b)[0] == a[0] && (a + b)[1..] == a[1..] + b;
      PostSumAppend(a[1..], b);
    } else {
      assert a + b == b;
    }
  }

  /** The total is the sum of all post counts: 0 for no boards, additive over a split of the list. */
  lemma TotalPostsIsSum(a: seq<Board>, b: seq<Board>)
    ensures TotalPosts([]) == 0
    ensures TotalPosts(a + b) == TotalPosts(a) + TotalPosts(b)
    ensures TotalPosts(a) == PostSum(a)
  {
    SumFromAddsPostSum(0, a);
    SumFromAddsPostSum(0, b);
    SumFromAddsPostSum(0, a + b);
    PostSumAppend(a, b);
  }

  // ---------------------------------------------------------------- popular threads

  /** ECMAScript WhiteSpace and LineTerminator code points, the ones `trim` removes. */
  predicate IsWhitespace(c: char) {
    var k := c as int;
    k == 0x09 || k == 0x0A || k == 0x0B || k == 0x0C || k == 0x0D || k == 0x20 || k == 0xA0
    || k == 0x1680 || (0x2000 <= k <= 0x200A) || k == 0x2028 || k == 0x2029 || k == 0x202F
    || k == 0x205F || k == 0x3000 || k == 0xFEFF
  }

  function TrimStart(s: string): string {
    if s != [] && IsWhitespace(s[0]) then TrimStart(s[1..]) else s
  }

  function TrimEnd(s: string): string {
    if s != [] && IsWhitespace(s[|s| - 1]) then TrimEnd(s[..|s| - 1]) else s
  }

  /** `String.prototype.trim`. */
  function Trim(s: string): string {
    TrimEnd(TrimStart(s))
  }

  predicate Blank(s: string) {
    forall i :: 0 <= i < |s| ==> IsWhitespace(s[i])
  }

  lemma {:induction false} TrimStartKeepsNonBlank(s: string)
    ensures TrimStart(s) == [] <==> Blank(s)
    ensures TrimStart(s) != [] ==> !IsWhitespace(TrimStart(s)[0])
  {
    if s != [] && IsWhitespace(s[0]) {
      TrimStartKeepsNonBlank(s[1..]);
      assert Blank(s) <==> Blank(s[1..]) by {
        if Blank(s[1..]) {
          forall i | 0 <= i < |s| ensures IsWhitespace(s[i]) {
            if i > 0 { assert s[i] == s[1..][i - 1]; }
          }
        }
      }
    }
  }

  lemma {:induction false} TrimEndOfNonBlankStart(s: string)
    requires s != [] && !IsWhitespace(s[0])
    ensures TrimEnd(s) != []
  {
    if IsWhitespace(s[|s| - 1]) {
      TrimEndOfNonBlankStart(s[..|s| - 1]);
    }
  }

  /** A string trims to nothing exactly when it is all whitespace. */
  lemma TrimEmptyIffBlank(s: string)
    ensures Trim(s) == "" <==> Blank(s)
  {
    TrimStartKeepsNonBlank(s);
    if TrimStart(s) != [] {
      TrimEndOfNonBlankStart(TrimStart(s));
    }
  }

  /** `thread.imageUrl && thread.imageUrl.trim() !== ''`. */
  predicate HasImage(t: Thread) {
    t.imageUrl.Some? && t.imageUrl.value != "" && Trim(t.imageUrl.value) != ""
  }

  /** `thread.replies || 0`. */
  function ReplyCount(t: Thread): int {
    if t.replies.Some? then t.replies.value else 0
  }

  function WithImages(ts: seq<Thread>): seq<Thread> {
    if ts == [] then []
    else (if HasImage(ts[0]) then [ts[0]] else []) + WithImages(ts[1..])
  }

  predicate SortedByReplies(s: seq<Thread>) {
    forall i, j :: 0 <= i < j < |s| ==> ReplyCount(s[i]) >= ReplyCount(s[j])
  }

  /** Places `t` after every thread with at least as many replies (so equal counts keep their order). */
  function InsertByReplies(t: Thread, s: seq<Thread>): seq<Thread> {
    if s == [] then [t]
    else if ReplyCount(s[0]) >= ReplyCount(t) then [s[0]] + InsertByReplies(t, s[1..])
    else [t] + s
  }

  /** `sort((a, b) => (b.replies || 0) - (a.replies || 0))`: stable, most replies first. */
  function SortByReplies(ts: seq<Thread>): seq<Thread> {
    if ts == [] then []
    else InsertByReplies(ts[|ts| - 1], SortByReplies(ts[..|ts| - 1]))
  }

  const PopularLimit: nat := 6

  /** `filter(...).sort(...).slice(0, 6)`. */
  function PopularThreads(ts: seq<Thread>): seq<Thread> {
    var sorted := SortByReplies(WithImages(ts));
    sorted[..if |sorted| < PopularLimit then |sorted| else PopularLimit]
  }

  lemma {:induction false} WithImagesSelects(ts: seq<Thread>)
    ensures forall t :: t in WithImages(ts) ==> HasImage(t)
    ensures forall t :: multiset(WithImages(ts))[t] == if HasImage(t) then multiset(ts)[t] else 0
  {
    if ts != [] {
      WithImagesSelects(ts[1..]);
      assert ts == [ts[0]] + ts[1..];
    }
  }

  lemma {:induction false} InsertPermutes(t: Thread, s: seq<Thread>)
    ensures multiset(InsertByReplies(t, s)) == multiset(s) + multiset{t}
  {
    if s != [] && ReplyCount(s[0]) >= ReplyCount(t) {
      InsertPermutes(t, s[1..]);
      assert s == [s[0]] + s[1..];
    }
  }

  /** Every thread of `s` has at most `bound` replies, and so has `t`: then so has every thread of the insertion. */
  lemma InsertBounded(t: Thread, s: seq<Thread>, bound: int)
    requires ReplyCount(t) <= bound
    requires forall k :: 0 <= k < |s| ==> ReplyCount(s[k]) <= bound
    ensures forall k :: 0 <= k < |InsertByReplies(t, s)| ==> ReplyCount(InsertByReplies(t, s)[k]) <= bound
  {
    var r := InsertByReplies(t, s);
    InsertPermutes(t, s);
    forall k | 0 <= k < |r| ensures ReplyCount(r[k]) <= bound {
      assert r[k] in multiset(s) + multiset{t};
    }
  }

  lemma {:induction false} InsertKeepsOrder(t: Thread, s: seq<Thread>)
    requires SortedByReplies(s)
    ensures SortedByReplies(InsertByReplies(t, s))
  {
    if s != [] {
      var r := InsertByReplies(t, s);
      if ReplyCount(s[0]) >= ReplyCount(t) {
        var rest := InsertByReplies(t, s[1..]);
        InsertKeepsOrder(t, s[1..]);
        InsertBounded(t, s[1..], ReplyCount(s[0]));
        assert r == [s[0]] + rest;
      } else {
        assert r == [t] + s;
      }
    }
  }

  lemma {:induction false} SortOrdersAndPermutes(ts: seq<Thread>)
    ensures SortedByReplies(SortByReplies(ts))
    ensures multiset(SortByReplies(ts)) == multiset(ts)
  {
    if ts != [] {
      var front := ts[..|ts| - 1];
      SortOrdersAndPermutes(front);
      InsertKeepsOrder(ts[|ts| - 1], SortByReplies(front));
      InsertPermutes(ts[|ts| - 1], SortByReplies(front));
      assert ts == front + [ts[|ts| - 1]];
    }
  }

  /** The first `n` of a sorted list have at least as many replies as every one after them. */
  lemma SortedPrefixDominates(sorted: seq<Thread>, n: nat, t: Thread, u: Thread)
    requires SortedByReplies(sorted) && n <= |sorted|
    requires t in sorted[n..] && u in sorted[..n]
    ensures ReplyCount(t) <= ReplyCount(u)
  {
    var j :| 0 <= j < |sorted[n..]| && sorted[n..][j] == t;
    var i :| 0 <= i < |sorted[..n]| && sorted[..n][i] == u;
    assert sorted[i] == u && sorted[n + j] == t;
  }

  /** The pick is the sorted image threads cut at six, and splits them with the rest. */
  lemma PopularSplit(ts: seq<Thread>)
    ensures var sorted := SortByReplies(WithImages(ts)); var r := PopularThreads(ts);
      && |r| <= |sorted| && r == sorted[..|r|]
      && SortedByReplies(sorted)
      && multiset(sorted) == multiset(WithImages(ts))
      && multiset(WithImages(ts)) - multiset(r) == multiset(sorted[|r|..])
  {
    var sorted := SortByReplies(WithImages(ts));
    var r := PopularThreads(ts);
    SortOrdersAndPermutes(WithImages(ts));
    assert sorted == r + sorted[|r|..];
    assert multiset(sorted) == multiset(r) + multiset(sorted[|r|..]);
  }

  lemma WithImagesIsSubMultiset(ts: seq<Thread>)
    ensures multiset(WithImages(ts)) <= multiset(ts)
  {
    WithImagesSelects(ts);
    forall t ensures multiset(WithImages(ts))[t] <= multiset(ts)[t] {
    }
  }

  lemma PopularAreImageThreadsOfInput(ts: seq<Thread>)
    ensures var r := PopularThreads(ts);
      && (forall t :: t in r ==> HasImage(t) && !Blank(t.imageUrl.value))
      && multiset(r) <= multiset(ts)
  {
    var r := PopularThreads(ts);
    var images := WithImages(ts);
    PopularSplit(ts);
    assert multiset(r) <= multiset(images);
    WithImagesIsSubMultiset(ts);
    WithImagesSelects(ts);
    forall t | t in r ensures HasImage(t) && !Blank(t.imageUrl.value) {
      assert t in multiset(images);
      assert t in images;
      TrimEmptyIffBlank(t.imageUrl.value);
    }
  }

  lemma PopularDominateTheRest(ts: seq<Thread>)
    ensures var r := PopularThreads(ts);
      && SortedByReplies(r)
      && (forall t, u :: t in multiset(WithImages(ts)) - multiset(r) && u in r ==> ReplyCount(t) <= ReplyCount(u))
  {
    var sorted := SortByReplies(WithImages(ts));
    var r := PopularThreads(ts);
    PopularSplit(ts);
    SortedPrefixSorted(sorted, |r|);
    forall t, u | t in multiset(WithImages(ts)) - multiset(r) && u in r
      ensures ReplyCount(t) <= ReplyCount(u)
    {
      LeftOutDominated(sorted, |r|, t, u);
    }
  }

  lemma SortedPrefixSorted(sorted: seq<Thread>, n: nat)
    requires SortedByReplies(sorted) && n <= |sorted|
    ensures SortedByReplies(sorted[..n])
  {
  }

  /** A thread counted past the first `n` of a sorted list has no more replies than any of the first `n`. */
  lemma LeftOutDominated(sorted: seq<Thread>, n: nat, t: Thread, u: Thread)
    requires SortedByReplies(sorted) && n <= |sorted|
    requires t in multiset(sorted[n..]) && u in sorted[..n]
    ensures ReplyCount(t) <= ReplyCount(u)
  {
    assert t in sorted[n..];
    SortedPrefixDominates(sorted, n, t, u);
  }

  /**
   * At most six threads are picked, all with a non-blank image, most replies
   * first, taken from the input; and no image thread left out has more
   * replies than any picked one.
   */
  lemma PopularThreadsAreTopSix(ts: seq<Thread>)
    ensures var r := PopularThreads(ts);
      && |r| == (if |WithImages(ts)| < 6 then |WithImages(ts)| else 6)
      && (forall t :: t in r ==> HasImage(t) && !Blank(t.imageUrl.value))
      && SortedByReplies(r)
      && multiset(r) <= multiset(ts)
      && (forall t, u :: t in multiset(WithImages(ts)) - multiset(r) && u in r ==> ReplyCount(t) <= ReplyCount(u))
  {
    SortOrdersAndPermutes(WithImages(ts));
    assert |SortByReplies(WithImages(ts))| == |WithImages(ts)| by {
      assert |multiset(SortByReplies(WithImages(ts)))| == |multiset(WithImages(ts))|;
    }
    PopularAreImageThreadsOfInput(ts);
    PopularDominateTheRest(ts);
  }

  // ---------------------------------------------------------------- per-thread display

  /** `thread.threadNumber || thread.id || index`. */
  function LinkId(t: Thread, index: nat): string {
    if t.threadNumber.Some? && t.threadNumber.value != 0 then IntToString(t.threadNumber.value)
    else if t.id.Some? && t.id.value != "" then t.id.value
    else NatToString(index)
  }

  /** The link of a picked thread: `/{boardCode}/thread/{threadNumber || id || index}`. */
  function ThreadHref(t: Thread, index: nat): string {
    "/" + t.boardCode + "/thread/" + LinkId(t, index)
  }

  /**
   * The link always ends in a non-empty segment after "/thread/": the thread
   * number when it is truthy (and it reads back as that number), else the id,
   * else the position.
   */
  lemma ThreadHrefSegment(t: Thread, index: nat)
    ensures var prefix := "/" + t.boardCode + "/thread/"; var h := ThreadHref(t, index);
      && |h| > |prefix| && h[..|prefix|] == prefix
      && (t.threadNumber.Some? && t.threadNumber.value != 0 ==> ParseInt(h[|prefix|..]) == t.threadNumber)
      && (!(t.threadNumber.Some? && t.threadNumber.value != 0) && t.id.Some? && t.id.value != "" ==> h[|prefix|..] == t.id.value)
      && (!(t.threadNumber.Some? && t.threadNumber.value != 0) && !(t.id.Some? && t.id.value != "") ==> ParseInt(h[|prefix|..]) == Some(index))
  {
    var prefix := "/" + t.boardCode + "/thread/";
    var h := ThreadHref(t, index);
    assert h[|prefix|..] == LinkId(t, index);
    if t.threadNumber.Some? && t.threadNumber.value != 0 {
      ParseIntOfIntToString(t.threadNumber.value);
    } else if !(t.id.Some? && t.id.value != "") {
      ParseIntOfNatToString(index);
    }
  }

  const ExcerptLength: nat := 100

  /** `{thread.content?.substring(0, 100)}{thread.content?.length > 100 && '...'}`. */
  function Excerpt(content: Option<string>): (r: string)
    ensures |r| <= ExcerptLength + 3
    ensures content.None? ==> r == ""
    ensures content.Some? && |content.value| <= ExcerptLength ==> r == content.value
    ensures content.Some? && |content.value| > ExcerptLength ==>
      |r| == ExcerptLength + 3 && r[..ExcerptLength] == content.value[..ExcerptLength] && r[ExcerptLength..] == "..."
  {
    match content
    case None => ""
    case Some(c) =>
      (if |c| <= ExcerptLength then c else c[..ExcerptLength]) + (if |c| > ExcerptLength then "..." else "")
  }
}

=== FILE: postform.dfy ===
/**
 * The post form component (src/app/components/PostForm.js): its state,
 * the rate-limit check and arming against localStorage, the countdown,
 * and the submit workflow, split at its one `await` into the part that
 * gates and sends the request and the continuation that handles the reply.
 */
module PostForm {
  import opened Wrappers
  import opened Decimal
  import opened Cooldown

  /** The keys of `formData`, in the order `Object.keys` lists them. */
  datatype FieldKey = Content | Author | Email | Subject | TripcodePassword

  const FieldKeys: seq<FieldKey> := [Content, Author, Email, Subject, TripcodePassword]

  /** The multipart field name each key is sent under. */
  function FieldName(k: FieldKey): string {
    match k
    case Content => "content"
    case Author => "author"
    case Email => "email"
    case Subject => "subject"
    case TripcodePassword => "tripcode_password"
  }

  lemma FieldNameInjective(k1: FieldKey, k2: FieldKey)
    ensures FieldName(k1) == FieldName(k2) <==> k1 == k2
  {
  }

  /** The text the user has typed so far. */
  datatype Draft = Draft(content: string, author: string, email: string, subject: string, tripcodePassword: string)
  {
    function Get(k: FieldKey): string {
      match k
      case Content => content
      case Author => author
      case Email => email
      case Subject => subject
      case TripcodePassword => tripcodePassword
    }

    /** `setFormData(prev => ({ ...prev, [k]: v }))`. */
    function With(k: FieldKey, v: string): (d: Draft)
      ensures d.Get(k) == v
      ensures forall k' :: k' != k ==> d.Get(k') == Get(k')
    {
      match k
      case Content => this.(content := v)
      case Author => this.(author := v)
      case Email => this.(email := v)
      case Subject => this.(subject := v)
      case TripcodePassword => this.(tripcodePassword := v)
    }
  }

  const EmptyDraft: Draft := Draft("", "", "", "", "")

  /** A picked file; only its identity matters to the form. */
  datatype File = File(name: string)

  /** One entry of the multipart body. */
  datatype Part = TextPart(name: string, value: string) | ImagePart(file: File)

  /** The entries `forEach` appends for `keys`: each key whose value is non-empty, in order. */
  function TextParts(d: Draft, keys: seq<FieldKey>): seq<Part> {
    if keys == [] then []
    else
      var k := keys[|keys| - 1];
      TextParts(d, keys[..|keys| - 1]) + (if d.Get(k) != "" then [TextPart(FieldName(k), d.Get(k))] else [])
  }

  /** The whole multipart body: the non-empty text fields, then the image when one is picked. */
  function SubmitParts(d: Draft, file: Option<File>): seq<Part> {
    TextParts(d, FieldKeys) + (if file.Some? then [ImagePart(file.value)] else [])
  }

  /** Every entry `forEach` appends for `keys` is a non-empty field of one of those keys. */
  lemma {:induction false} TextPartsOnlyFields(d: Draft, keys: seq<FieldKey>, p: Part)
    requires p in TextParts(d, keys)
    ensures p.TextPart? && p.value != "" && exists i :: 0 <= i < |keys| && p.name == FieldName(keys[i]) && p.value == d.Get(keys[i])
  {
    var front := keys[..|keys| - 1];
    var last := keys[|keys| - 1];
    assert TextParts(d, keys) == TextParts(d, front) + (if d.Get(last) != "" then [TextPart(FieldName(last), d.Get(last))] else []);
    if p in TextParts(d, front) {
      TextPartsOnlyFields(d, front, p);
      var i :| 0 <= i < |front| && p.name == FieldName(front[i]) && p.value == d.Get(front[i]);
      assert front[i] == keys[i];
    } else {
      assert p.name == FieldName(keys[|keys| - 1]);
    }
  }

  /** Every key among `keys` whose value is non-empty gets its entry. */
  lemma {:induction false} TextPartsHasField(d: Draft, keys: seq<FieldKey>, i: nat)
    requires i < |keys| && d.Get(keys[i]) != ""
    ensures TextPart(FieldName(keys[i]), d.Get(keys[i])) in TextParts(d, keys)
  {
    var front := keys[..|keys| - 1];
    var last := keys[|keys| - 1];
    assert TextParts(d, keys) == TextParts(d, front) + (if d.Get(last) != "" then [TextPart(FieldName(last), d.Get(last))] else []);
    if i < |front| {
      assert front[i] == keys[i];
      TextPartsHasField(d, front, i);
    }
  }

  lemma TextPartsMembers(d: Draft, keys: seq<FieldKey>, p: Part)
    ensures p in TextParts(d, keys) <==>
      p.TextPart? && p.value != "" && exists i :: 0 <= i < |keys| && p.name == FieldName(keys[i]) && p.value == d.Get(keys[i])
  {
    if p in TextParts(d, keys) {
      TextPartsOnlyFields(d, keys, p);
    }
    if p.TextPart? && p.value != "" && exists i :: 0 <= i < |keys| && p.name == FieldName(keys[i]) && p.value == d.Get(keys[i]) {
      var i :| 0 <= i < |keys| && p.name == FieldName(keys[i]) && p.value == d.Get(keys[i]);
      TextPartsHasField(d, keys, i);
    }
  }

  /**
   * The request carries exactly the non-empty draft fields, each under its
   * own name with its own value, and the image exactly when a file is picked.
   */
  lemma SubmitPartsExact(d: Draft, file: Option<File>, k: FieldKey, v: string, f: File)
    ensures TextPart(FieldName(k), v) in SubmitParts(d, file) <==> v == d.Get(k) && v != ""
    ensures ImagePart(f) in SubmitParts(d, file) <==> file == Some(f)
    ensures forall p :: p in SubmitParts(d, file) && p.TextPart? ==> p.value != ""
    ensures forall p :: p in SubmitParts(d, file) ==> p.ImagePart? || exists k' :: p == TextPart(FieldName(k'), d.Get(k'))
  {
    var texts := TextParts(d, FieldKeys);
    SubmitPartsShape(d, file);
    if TextPart(FieldName(k), v) in SubmitParts(d, file) {
      TextPartIsField(d, file, TextPart(FieldName(k), v));
      var i :| 0 <= i < |FieldKeys| && FieldName(k) == FieldName(FieldKeys[i]) && v == d.Get(FieldKeys[i]);
      FieldNameInjective(k, FieldKeys[i]);
    }
    if v == d.Get(k) && v != "" {
      var i := match k
        case Content => 0
        case Author => 1
        case Email => 2
        case Subject => 3
        case TripcodePassword => 4;
      assert FieldKeys[i] == k;
      TextPartsHasField(d, FieldKeys, i);
    }
    if ImagePart(f) in texts {
      TextPartsOnlyFields(d, FieldKeys, ImagePart(f));
    }
  }

  /** Every text part of the body is some key's non-empty value. */
  lemma SubmitPartsShape(d: Draft, file: Option<File>)
    ensures forall p :: p in SubmitParts(d, file) && p.TextPart? ==> p.value != ""
    ensures forall p :: p in SubmitParts(d, file) ==> p.ImagePart? || exists k' :: p == TextPart(FieldName(k'), d.Get(k'))
  {
    forall p | p in SubmitParts(d, file) && p.TextPart?
      ensures p.value != ""
      ensures exists k' :: p == TextPart(FieldName(k'), d.Get(k'))
    {
      TextPartIsField(d, file, p);
    }
  }

  /** A text part of the body comes from one of the draft's keys, with that key's non-empty value. */
  lemma TextPartIsField(d: Draft, file: Option<File>, p: Part)
    requires p in SubmitParts(d, file) && p.TextPart?
    ensures p.value != ""
    ensures exists i :: 0 <= i < |FieldKeys| && p.name == FieldName(FieldKeys[i]) && p.value == d.Get(FieldKeys[i])
    ensures exists k' :: p == TextPart(FieldName(k'), d.Get(k'))
  {
    assert p in TextParts(d, FieldKeys);
    TextPartsOnlyFields(d, FieldKeys, p);
    var i :| 0 <= i < |FieldKeys| && p.name == FieldName(FieldKeys[i]) && p.value == d.Get(FieldKeys[i]);
    assert p == TextPart(FieldName(FieldKeys[i]), d.Get(FieldKeys[i]));
  }

  /** Every entry `forEach` appends is a text part. */
  lemma TextPartsAreText(d: Draft, keys: seq<FieldKey>, i: nat)
    requires i < |TextParts(d, keys)|
    ensures TextParts(d, keys)[i].TextPart?
  {
    TextPartsMembers(d, keys, TextParts(d, keys)[i]);
  }

  /** When `forEach` visits each key at most once, two entries it appends carry different names. */
  lemma {:induction false} TextPartsNamesDiffer(d: Draft, keys: seq<FieldKey>, i: nat, j: nat)
    requires forall a, b :: 0 <= a < b < |keys| ==> keys[a] != keys[b]
    requires i < j < |TextParts(d, keys)|
    ensures TextParts(d, keys)[i].TextPart? && TextParts(d, keys)[j].TextPart?
    ensures TextParts(d, keys)[i].name != TextParts(d, keys)[j].name
  {
    var front := keys[..|keys| - 1];
    var last := keys[|keys| - 1];
    var fs := TextParts(d, front);
    assert TextParts(d, keys) == fs + (if d.Get(last) != "" then [TextPart(FieldName(last), d.Get(last))] else []);
    assert forall a, b :: 0 <= a < b < |front| ==> front[a] != front[b] by {
      forall a, b | 0 <= a < b < |front|
        ensures front[a] != front[b]
      {
        assert front[a] == keys[a] && front[b] == keys[b];
      }
    }
    TextPartsAreText(d, keys, i);
    TextPartsAreText(d, keys, j);
    if j < |fs| {
      TextPartsNamesDiffer(d, front, i, j);
    } else {
      var p := fs[i];
      TextPartsMembers(d, front, p);
      var m :| 0 <= m < |front| && p.name == FieldName(front[m]) && p.value == d.Get(front[m]);
      assert front[m] == keys[m];
      FieldNameInjective(front[m], last);
    }
  }

  /** No field appears twice in the request body, and the image at most once. */
  lemma SubmitPartsNoDuplicates(d: Draft, file: Option<File>)
    ensures var ps := SubmitParts(d, file);
      forall i, j :: 0 <= i < j < |ps| && ps[i].TextPart? && ps[j].TextPart? ==> ps[i].name != ps[j].name
    ensures var ps := SubmitParts(d, file);
      forall i, j :: 0 <= i < j < |ps| && ps[i].ImagePart? ==> !ps[j].ImagePart?
  {
    var ts := TextParts(d, FieldKeys);
    var ps := SubmitParts(d, file);
    forall i | 0 <= i < |ts|
      ensures ps[i] == ts[i] && ts[i].TextPart?
    {
      TextPartsAreText(d, FieldKeys, i);
    }
    forall i, j | 0 <= i < j < |ts|
      ensures ts[i].name != ts[j].name
    {
      TextPartsNamesDiffer(d, FieldKeys, i, j);
    }
  }

  /** Where the form posts: the thread's replies, or the board's threads. */
  function Endpoint(boardCode: string, threadNumber: Option<nat>): string {
    if IsReply(threadNumber) then "/api/" + boardCode + "/threads/" + NatToString(threadNumber.value) + "/posts"
    else "/api/" + boardCode + "/threads"
  }

  /**
   * Both endpoints live under the board's threads. A new thread posts to
   * exactly that path; a reply's path ends in "/posts" and the segment
   * between reads back as the thread number.
   */
  lemma EndpointKind(boardCode: string, threadNumber: Option<nat>)
    ensures var e := Endpoint(boardCode, threadNumber); var base := "/api/" + boardCode + "/threads";
      && |e| >= |base| && e[..|base|] == base
      && (IsReply(threadNumber) <==> |e| >= 6 && e[|e| - 6..] == "/posts")
      && (!IsReply(threadNumber) ==> e == base)
      && (IsReply(threadNumber) ==>
            |e| >= |base| + 7 && e[|base|] == '/' && ParseInt(e[|base| + 1..|e| - 6]) == Some(threadNumber.value as int))
  {
    var e := Endpoint(boardCode, threadNumber);
    var base := "/api/" + boardCode + "/threads";
    if IsReply(threadNumber) {
      var digits := NatToString(threadNumber.value);
      assert e == base + ("/" + digits + "/posts");
      assert e[|base| + 1..|e| - 6] == digits;
      ParseIntOfNatToString(threadNumber.value);
    } else {
      assert e[|e| - 6..] == "hreads";
    }
  }

  /** The created post as the server returns it, or a body that is JSON `null`. */
  datatype NewPost = NewPost(threadNumber: Option<nat>) | NullPost

  /**
   * How the `fetch` ends: a 2xx with a parsed body, a non-2xx with a parsed
   * body, or a throw before any state changes (the fetch or the JSON parse).
   */
  datatype Response = Accepted(post: NewPost) | Refused(error: Option<string>) | Failed

  const EmptyAlert: string := "Please enter content or select an image"
  const FailureAlert: string := "Failed to submit post"

  function RateLimitAlert(remaining: int, threadNumber: Option<nat>): string {
    "Please wait " + FormatTimeRemaining(remaining) + " before "
      + (if IsReply(threadNumber) then "posting again" else "creating another thread")
  }

  /** `error.error || 'Failed to submit post'`, and the fixed text when the request threw. */
  function FailureMessage(response: Response): (msg: string)
    requires !response.Accepted?
    ensures msg != ""
    ensures response.Refused? && response.error.Some? && response.error.value != "" ==> msg == response.error.value
    ensures !(response.Refused? && response.error.Some? && response.error.value != "") ==> msg == FailureAlert
  {
    match response
    case Refused(e) => if e.Some? && e.value != "" then e.value else FailureAlert
    case Failed => FailureAlert
  }

  /** The page a new thread's author is sent to: `/{board}/thread/{newPost.threadNumber}`. */
  function ThreadPath(boardCode: string, post: NewPost): string
    requires post.NewPost?
  {
    "/" + boardCode + "/thread/"
      + (if post.threadNumber.Some? then NatToString(post.threadNumber.value) else "undefined")
  }

  /** A request in flight, with the props the submit handler's closure captured. */
  datatype Pending = Pending(boardCode: string, threadNumber: Option<nat>, endpoint: string, parts: seq<Part>)

  /** What the synchronous part of a submit does: block with an alert, or send. */
  datatype SubmitStart = Blocked(alert: string) | Sent(request: Pending)

  /** What the continuation does: an alert, the `onPostCreated` argument, a redirect. */
  datatype Completion = Completion(alert: Option<string>, created: Option<NewPost>, redirect: Option<string>)

  /**
   * What the continuation reports after a 2xx reply, once the limit is armed
   * and the form is reset. `onPostCreated` is called with the body; when it
   * throws (`callbackThrows`), or when a new thread's body is `null` so that
   * reading its `threadNumber` throws, the handler's `catch` shows the fixed
   * failure alert and there is no redirect. Otherwise only a new thread
   * redirects, to its own page.
   */
  function AcceptedCompletion(pending: Pending, post: NewPost, callbackThrows: bool): (c: Completion)
    ensures c.created == Some(post)
    ensures c.alert.Some? <==> callbackThrows || (!IsReply(pending.threadNumber) && post.NullPost?)
    ensures c.alert.Some? ==> c.alert.value == FailureAlert
    ensures c.redirect.Some? <==> !callbackThrows && !IsReply(pending.threadNumber) && post.NewPost?
    ensures c.redirect.Some? ==> post.NewPost? && c.redirect.value == ThreadPath(pending.boardCode, post)
    ensures c.alert.None? || c.redirect.None?
  {
    if callbackThrows then Completion(Some(FailureAlert), Some(post), None)
    else if IsReply(pending.threadNumber) then Completion(None, Some(post), None)
    else match post
      case NullPost => Completion(Some(FailureAlert), Some(post), None)
      case NewPost(_) => Completion(None, Some(post), Some(ThreadPath(pending.boardCode, post)))
  }

  /**
   * The gates of the submit handler: the rate limit is checked first, then
   * the empty draft; only then is a request built.
   */
  function SubmitDecision(state: RateState, d: Draft, file: Option<File>,
                          boardCode: string, threadNumber: Option<nat>): (r: SubmitStart)
    ensures state.limited ==> r == Blocked(RateLimitAlert(state.remaining, threadNumber))
    ensures r.Sent? <==> !state.limited && (d.content != "" || file.Some?)
    ensures r.Sent? ==>
      && r.request.boardCode == boardCode && r.request.threadNumber == threadNumber
      && r.request.endpoint == Endpoint(boardCode, threadNumber)
      && r.request.parts == SubmitParts(d, file)
  {
    if state.limited then Blocked(RateLimitAlert(state.remaining, threadNumber))
    else if d.content == "" && file.None? then Blocked(EmptyAlert)
    else Sent(Pending(boardCode, threadNumber, Endpoint(boardCode, threadNumber), SubmitParts(d, file)))
  }

  /** Builds the multipart body the way the handler does, one key at a time. */
  method BuildSubmitData(d: Draft, file: Option<File>) returns (parts: seq<Part>)
    ensures parts == SubmitParts(d, file)
  {
    parts := [];
    for i := 0 to |FieldKeys|
      invariant parts == TextParts(d, FieldKeys[..i])
    {
      var k := FieldKeys[i];
      assert FieldKeys[..i + 1][..i] == FieldKeys[..i];
      if d.Get(k) != "" {
        parts := parts + [TextPart(FieldName(k), d.Get(k))];
      }
    }
    assert FieldKeys[..|FieldKeys|] == FieldKeys;
    if file.Some? {
      parts := parts + [ImagePart(file.value)];
    }
  }

  /** The browser's localStorage, shared by every form on the page. */
  class LocalStorage {
    var items: map<string, string>

    constructor ()
      ensures items == map[]
    {
      items := map[];
    }

    /** `localStorage.getItem(key)`. */
    function GetItem(key: string): Option<string>
      reads this
    {
      MapLookup(items, key)
    }

    /** `localStorage.setItem(key, value)`. */
    method SetItem(key: string, value: string)
      modifies this
      ensures items == old(items)[key := value]
    {
      items := items[key := value];
    }
  }

  class PostForm {
    // props
    var boardCode: string
    var threadNumber: Option<nat>
    const store: LocalStorage
    // component state
    var isSubmitting: bool
    var showForm: bool
    var formData: Draft
    var selectedFile: Option<File>
    var isRateLimited: bool
    var timeUntilNextPost: int

    function RateLimit(): RateState
      reads this
    {
      RateState(isRateLimited, timeUntilNextPost)
    }

    /** The form is limited exactly while some time is left, and never negative time. */
    ghost predicate Valid()
      reads this
    {
      Consistent(RateLimit())
    }

    /** The submit button is enabled unless a request is in flight or the form is limited. */
    function SubmitEnabled(): bool
      reads this
    {
      !(isSubmitting || isRateLimited)
    }

    /** First render: hidden, empty, not submitting, not limited. */
    constructor (boardCode: string, threadNumber: Option<nat>, store: LocalStorage)
      ensures Valid()
      ensures this.boardCode == boardCode && this.threadNumber == threadNumber && this.store == store
      ensures !isSubmitting && !showForm && formData == EmptyDraft && selectedFile.None?
      ensures RateLimit() == RateState(false, 0)
    {
      this.boardCode := boardCode;
      this.threadNumber := threadNumber;
      this.store := store;
      isSubmitting := false;
      showForm := false;
      formData := EmptyDraft;
      selectedFile := None;
      isRateLimited := false;
      timeUntilNextPost := 0;
    }

    /** `checkRateLimit`, run on mount and whenever the props change. */
    method CheckRateLimit(now: nat)
      requires Valid()
      modifies this`isRateLimited, this`timeUntilNextPost
      ensures Valid()
      ensures RateLimit() == CheckedState(old(RateLimit()), store.GetItem(StorageKey(boardCode, threadNumber)),
                                          now, CooldownFor(threadNumber))
    {
      var storageKey := StorageKey(boardCode, threadNumber);
      var lastPostTime := store.GetItem(storageKey);
      if lastPostTime.Some? && lastPostTime.value != "" {
        var cooldownTime := CooldownFor(threadNumber);
        match ParseInt(lastPostTime.value) {
          case None =>
            // NaN: `timeSinceLastPost < cooldownTime` is false
            isRateLimited := false;
            timeUntilNextPost := 0;
          case Some(last) =>
            var timeSinceLastPost := now - last;
            if timeSinceLastPost < cooldownTime {
              isRateLimited := true;
              timeUntilNextPost := cooldownTime - timeSinceLastPost;
            } else {
              isRateLimited := false;
              timeUntilNextPost := 0;
            }
        }
      }
    }

    /** New props: the effect re-runs the check for the new target. */
    method Retarget(newBoardCode: string, newThreadNumber: Option<nat>, now: nat)
      requires Valid()
      modifies this`boardCode, this`threadNumber, this`isRateLimited, this`timeUntilNextPost
      ensures Valid()
      ensures boardCode == newBoardCode && threadNumber == newThreadNumber
      ensures RateLimit() == CheckedState(old(RateLimit()), store.GetItem(StorageKey(newBoardCode, newThreadNumber)),
                                          now, CooldownFor(newThreadNumber))
    {
      boardCode := newBoardCode;
      threadNumber := newThreadNumber;
      CheckRateLimit(now);
    }

    /**
     * `setRateLimit` as seen by a handler whose render had the given props:
     * record `now` for that target and start its full window.
     */
    method SetRateLimit(targetBoard: string, targetThread: Option<nat>, now: nat)
      requires Valid()
      modifies this`isRateLimited, this`timeUntilNextPost, store
      ensures Valid()
      ensures store.items == old(store.items)[StorageKey(targetBoard, targetThread) := NatToString(now)]
      ensures RateLimit() == RateState(true, CooldownFor(targetThread))
    {
      var storageKey := StorageKey(targetBoard, targetThread);
      store.SetItem(storageKey, NatToString(now));
      var cooldownTime := CooldownFor(targetThread);
      isRateLimited := true;
      timeUntilNextPost := cooldownTime;
    }

    /** One firing of the countdown interval (it exists only while limited with time left). */
    method Tick()
      requires Valid()
      modifies this`isRateLimited, this`timeUntilNextPost
      ensures Valid()
      ensures RateLimit() == TickState(old(RateLimit()))
    {
      if isRateLimited && timeUntilNextPost > 0 {
        var prev := timeUntilNextPost;
        if prev <= 1000 {
          isRateLimited := false;
          timeUntilNextPost := 0;
        } else {
          timeUntilNextPost := prev - 1000;
        }
      }
    }

    method Open()
      requires Valid()
      modifies this`showForm
      ensures Valid()
      ensures showForm
    {
      showForm := true;
    }

    /** The close button only hides the form; the draft stays. */
    method Close()
      requires Valid()
      modifies this`showForm
      ensures Valid()
      ensures !showForm
    {
      showForm := false;
    }

    /** An input's `onChange`. */
    method Edit(k: FieldKey, v: string)
      requires Valid()
      modifies this`formData
      ensures Valid()
      ensures formData == old(formData).With(k, v)
    {
      formData := formData.With(k, v);
    }

    /** The file input's `onChange` (`files[0]`, absent when the dialog is cancelled). */
    method SelectFile(f: Option<File>)
      requires Valid()
      modifies this`selectedFile
      ensures Valid()
      ensures selectedFile == f
    {
      selectedFile := f;
    }

    /**
     * `handleSubmit` up to its `await`: the gates, then the request is built
     * and the form marks itself submitting. Nothing else changes.
     */
    method HandleSubmit() returns (r: SubmitStart)
      requires Valid()
      modifies this`isSubmitting
      ensures Valid()
      ensures r == SubmitDecision(RateLimit(), formData, selectedFile, boardCode, threadNumber)
      ensures isSubmitting == (old(isSubmitting) || r.Sent?)
      ensures r.Sent? ==> !SubmitEnabled()
    {
      if isRateLimited {
        return Blocked(RateLimitAlert(timeUntilNextPost, threadNumber));
      }
      if formData.content == "" && selectedFile.None? {
        return Blocked(EmptyAlert);
      }
      isSubmitting := true;
      var parts := BuildSubmitData(formData, selectedFile);
      var endpoint := Endpoint(boardCode, threadNumber);
      r := Sent(Pending(boardCode, threadNumber, endpoint, parts));
    }

    /**
     * A submit attempt from the page: a disabled submit button lets no
     * submission through, so while a request is in flight or the form is
     * limited nothing happens.
     */
    method RequestSubmit() returns (r: Option<SubmitStart>)
      requires Valid()
      modifies this`isSubmitting
      ensures Valid()
      ensures !old(SubmitEnabled()) ==> r.None? && isSubmitting == old(isSubmitting)
      ensures old(SubmitEnabled()) ==> r == Some(SubmitDecision(RateLimit(), formData, selectedFile, boardCode, threadNumber))
      ensures isSubmitting == (old(isSubmitting) || (r.Some? && r.value.Sent?))
    {
      if !SubmitEnabled() {
        return None;
      }
      var start := HandleSubmit();
      r := Some(start);
    }

    /**
     * `handleSubmit` after its `await`. On a 2xx reply the cooldown of the
     * submitted target is armed at `now`, the draft and file are cleared and
     * the form is hidden, whatever the `onPostCreated` callback (which may
     * throw: `callbackThrows`) and the redirect then do. On a refusal or a
     * throw before that, the draft, file, storage and limit stay as they are
     * and an alert explains. The form stops submitting either way.
     */
    method FinishSubmit(pending: Pending, response: Response, callbackThrows: bool, now: nat) returns (c: Completion)
      requires Valid()
      modifies this`isSubmitting, this`isRateLimited, this`timeUntilNextPost, this`formData,
               this`selectedFile, this`showForm, store
      ensures Valid()
      ensures !isSubmitting
      ensures response.Accepted? ==>
        && store.items == old(store.items)[StorageKey(pending.boardCode, pending.threadNumber) := NatToString(now)]
        && RateLimit() == RateState(true, CooldownFor(pending.threadNumber))
        && formData == EmptyDraft && selectedFile.None? && !showForm
        && c == AcceptedCompletion(pending, response.post, callbackThrows)
      ensures !response.Accepted? ==>
        && store.items == old(store.items) && RateLimit() == old(RateLimit())
        && formData == old(formData) && selectedFile == old(selectedFile) && showForm == old(showForm)
        && c == Completion(Some(FailureMessage(response)), None, None)
    {
      if response.Accepted? {
        SetRateLimit(pending.boardCode, pending.threadNumber, now);
        formData := EmptyDraft;
        selectedFile := None;
        showForm := false;
        if callbackThrows {
          c := Completion(Some(FailureAlert), Some(response.post), None);
        } else if !IsReply(pending.threadNumber) && response.post.NullPost? {
          c := Completion(Some(FailureAlert), Some(response.post), None);
        } else if !IsReply(pending.threadNumber) {
          c := Completion(None, Some(response.post), Some(ThreadPath(pending.boardCode, response.post)));
        } else {
          c := Completion(None, Some(response.post), None);
        }
      } else {
        c := Completion(Some(FailureMessage(response)), None, None);
      }
      isSubmitting := false;
    }
  }

  /**
   * A reply to thread 7 of board "a" recorded ten seconds ago is still
   * limited with fifty seconds left, and a submit is turned away before any
   * request with a message naming "50s".
   */
  lemma ReplyWhileLimitedScenario(prev: RateState, armedAt: nat, d: Draft, file: Option<File>)
    ensures var s := CheckedState(prev, Some(NatToString(armedAt)), armedAt + 10000, CooldownFor(Some(7)));
      && s == RateState(true, 50000)
      && SubmitDecision(s, d, file, "a", Some(7)) == Blocked("Please wait 50s before posting again")
  {
    FiftySecondsLeft(prev, armedAt);
    FiftySecondsAlert();
  }

  lemma FiftySecondsLeft(prev: RateState, armedAt: nat)
    ensures CheckedState(prev, Some(NatToString(armedAt)), armedAt + 10000, CooldownFor(Some(7))) == RateState(true, 50000)
  {
    CheckAfterArm(prev, armedAt, armedAt + 10000, PostCooldown);
  }

  lemma FiftySecondsAlert()
    ensures RateLimitAlert(50000, Some(7)) == "Please wait 50s before posting again"
  {
    assert NatToString(50) == "50" by {
      assert NatToString(5) == "5";
    }
    FormatSecondsExample(50000, 50, "50");
    ReplyAlertText(50000, 7, "50s");
    FiftySecondsWording();
  }

  lemma FiftySecondsWording()
    ensures "Please wait " + "50s" + " before posting again" == "Please wait 50s before posting again"
  {
    assert "Please wait " + "50s" == "Please wait 50s";
  }

  /** The wait alert for a reply is the rendered time between fixed words. */
  lemma ReplyAlertText(remaining: int, n: nat, text: string)
    requires n != 0 && FormatTimeRemaining(remaining) == text
    ensures RateLimitAlert(remaining, Some(n)) == "Please wait " + text + " before posting again"
  {
    assert "Please wait " + text + " before " + "posting again" == "Please wait " + text + " before posting again";
  }
}

=== FILE: wrappers.dfy ===
/** The usual Some/None datatype, standing for JavaScript's `undefined`/`null`. */
module Wrappers {
  datatype Option<+T> = None | Some(value: T)

  /** A map read that may miss, as a property read of a plain object does. */
  function MapLookup<K, V>(m: map<K, V>, k: K): Option<V> {
    if k in m then Some(m[k]) else None
  }
}
